=== FILE: README.md ===
# Vision-RAG responder, modelled in Dafny

This project models `generate_response` in `models/responder.py` of the Vision-RAG
repository. The function takes a list of image identifiers (paths relative to the
`static` directory), a text query, a requested image height and width, and a
backend key. It routes the request to one of six vision-language backends: Qwen,
Llama-vision, Pixtral and Molmo run locally; Gemini and GPT-4 are remote APIs. It
always hands a string back to its caller.

The model keeps the deterministic logic around the library calls:

- the dispatch on the key;
- the request each backend adapter builds (content order, the `static/` join,
  Qwen's 28-pixel alignment, the base64 data URIs);
- the fixed sentinel texts and the short-circuits that return them;
- the inner failure boundary of Gemini, GPT-4 and Molmo, and the outer boundary
  that turns any escaping exception into one generic text;
- Molmo's closing of the image it opened.

Everything outside the file is an oracle in an `Env` value:

- `setup`: obtaining a backend's model handle or API client;
- `pathExists`: `os.path.exists`;
- `open`: `Image.open`, followed by `.convert("RGB")` where the code does that;
- `encode`: reading a file and base64-encoding its bytes;
- `generate`: running a backend on a request.

Each oracle either returns or raises. Raising is modelled by
`Outcome = Return(value) | Raise(error)`. Each consultation is recorded, in order,
as an `Event` in a trace. Two kinds of image reading stay inside `generate` and
leave no event: the reads Qwen's library does inside its model call, and the pixel
decoding of Gemini's lazily opened images (see "Left out"). "The model is not called", "the second image is never
read" and "the image is closed exactly once" then become statements about that
trace. `GenerateResponse` is a pure function of the environment and the arguments.
It returns the text together with the trace.

Modules, leaf first:

- `Outcomes`: `Option` and `Outcome`.
- `Backends`: the backend enum and its keys.
- `Paths`: `os.path.join` onto `static`, `os.path.splitext`, and data URIs.
- `Sizing`: Qwen's alignment.
- `Requests`: images, prompt parts, calls, events, the environment and the sentinel texts.
- `Collecting`: the per-image loop shared by Gemini, GPT-4 and Molmo.
- `Responder`: the adapters and the dispatcher.
- `Properties`: lemmas that hold for every environment.

Details of the code worth knowing:

- Llama-vision's chat message lists the image slot before the text
  (`models/responder.py:160-163`). So Qwen and Llama-vision put the image first,
  and the other backends put the text first.
- Pixtral called with no images runs its model on the query alone. It does not
  return the no-images text.
- GPT-4 checks that each path exists and then reads the file. A read that still
  fails is caught by its inner boundary.
- Molmo's processor takes the images and the text as separate keyword arguments.
  The model lists the text first; the order is only a convention.

## Model

| member | source | states |
|---|---|---|
| Backends.ParseKey | models/responder.py:29-200 | a key selects a backend exactly when it is one of the six known keys, and the selected backend's key is the key given |
| Backends.ParseKeyRoundTrip | models/responder.py:29-200 | every backend is selected by its own key and by no other key |
| Paths.Join | models/responder.py:80 | `os.path.join("static", p)` leaves the identifier unchanged exactly when it is absolute, and the result is absolute exactly when the identifier is |
| Paths.JoinShape | models/responder.py:80 | the joined path ends with the identifier, and a relative identifier is exactly `static/` followed by it |
| Paths.JoinInjective | models/responder.py:80 | joining onto `static` (an absolute identifier replaces the root) maps distinct identifiers to distinct paths |
| Paths.LastIndexOf | models/responder.py:184 | `rfind` of one character: the index holds the character and no later index does, or -1 when it is absent |
| Paths.Splitext | models/responder.py:184 | `splitext` splits the path into root and extension, which concatenate back to the path. The extension is empty or is a dot followed by no further dot or slash. It is non-empty exactly when the last path component holds a dot with a non-dot character before it |
| Paths.Extension | models/responder.py:184 | `splitext(p)[1][1:]`: empty when `splitext` finds no extension, and otherwise the extension `splitext` found without its leading dot (so `a.` gives the empty subtype). It contains no dot or slash |
| Paths.ExtensionExamples | models/responder.py:184 | `cat.png` gives `png`; a dot-file or a dot in a directory name gives no extension |
| Paths.DataUrl | models/responder.py:120 | the URI is `data:image/`, then the subtype, then `;base64,`, then the payload, with nothing else in between |
| Paths.DataUrlSubtype | models/responder.py:120 | two data URIs with the same payload are equal exactly when their MIME subtypes are |
| Sizing.AlignDown | models/responder.py:33-35 | the size passed to Qwen is a multiple of 28, at most the request, and less than 28 below it (Python `//` floors, as Dafny's `/` does for a positive divisor) |
| Sizing.AlignDownUnique | models/responder.py:34-35 | that multiple of 28 is the only one in the window, so it is exactly the floor alignment |
| Sizing.AlignDownIdempotent | models/responder.py:23-35 | aligning twice changes nothing; the default 280 stays 280 and 300 becomes 280 |
| Sizing.AlignDownMonotonic | models/responder.py:34-35 | a larger request never gets a smaller aligned size |
| Collecting.Collect | models/responder.py:79-89 | the image loop yields at most one item per identifier |
| Collecting.CollectAppend | models/responder.py:79-89 | the loop over a concatenation runs the loop over each part in turn; items keep input order, and a raise stops everything after it |
| Collecting.CollectSingle | models/responder.py:79-89 | one identifier contributes nothing, its one item, or its exception |
| Collecting.CollectItems | models/responder.py:79-89 | when no step raises, the loop returns, and its items are exactly those the steps produced |
| Collecting.CollectTrace | models/responder.py:79-89 | the loop consults nothing but the steps of the listed identifiers |
| Collecting.CollectRaise | models/responder.py:113-124 | the loop raises exactly when some step raises, with the error of the first one that does |
| Responder.OpenStep | models/responder.py:80-88 | Gemini's and Molmo's step never raises; it keeps the image exactly when the joined path exists and opens |
| Responder.EncodeStep | models/responder.py:114-124 | GPT-4's step skips a missing file, raises exactly when an existing file cannot be read, and otherwise yields a JPEG data URI of its encoding |
| Responder.EncodeImages | models/responder.py:113-124 | GPT-4's loop raises exactly when some existing file cannot be read; otherwise it yields at most one URI per identifier (order and content in the lemmas below) |
| Responder.QwenContent | models/responder.py:37-48 | Qwen's content is one image part per identifier, in input order, each with the given size and the joined path, then the query as the only text part, last |
| Responder.PixtralUrl | models/responder.py:178-185 | Pixtral's URI subtype is the extension `splitext` found without its dot; with no extension the URI is `data:image/;base64,` and the payload |
| Responder.MolmoLoad | models/responder.py:203-213 | Molmo's loop over `images[:1]` never raises and opens at most one image: the first identifier's, exactly when it is loadable |
| Responder.LoadFirstImage | models/responder.py:203-211 | the loop over `images[:1]` loads nothing for an empty list, and otherwise exactly the first image when it is loadable |
| Responder.LoadImages | models/responder.py:79-89 | the Gemini/Molmo image loop never raises and yields at most one image per identifier |
| Responder.QwenAdapter | models/responder.py:29-69 | Qwen obtains its model first; after that it runs the model once, and the model's outcome, exception included, is passed on |
| Responder.GeminiAdapter | models/responder.py:71-104 | once Gemini's model is obtained, no exception leaves the adapter, and the text it returns is never empty |
| Responder.Gpt4Adapter | models/responder.py:106-146 | once the OpenAI client is built, no exception leaves the adapter |
| Responder.LlamaVisionAdapter | models/responder.py:148-171 | with no images, or when the first image fails to open, the adapter raises without running the model. It runs the model exactly when the model loads, there is an image, and the first one opens. The message then holds the first image before the query, and the model's outcome is passed on |
| Responder.PixtralAdapter | models/responder.py:173-198 | the adapter runs Pixtral's own model and passes its outcome on; if the model was not run, the adapter raised |
| Responder.MolmoAdapter | models/responder.py:200-252 | once Molmo's model is obtained, no exception leaves the adapter |
| Responder.Adapter | models/responder.py:27-252 | every selected adapter consults its model handle or client before anything else |
| Responder.GenerateResponse | models/responder.py:23-258 | the trace is empty exactly when the key is unknown: nothing outside is consulted for an unknown key |
| Properties.LoadImagesFacts | models/responder.py:79-89 | the loaded images are exactly those of identifiers whose joined path exists and opens; only probes and opens of listed identifiers happen |
| Properties.LoadImagesAppend | models/responder.py:79-89 | loaded images (and the trace) keep the input order across a concatenation |
| Properties.LoadImagesSingle | models/responder.py:80-88 | one identifier contributes its image exactly when it is loadable |
| Properties.LoadImagesEmpty | models/responder.py:90-91 | nothing is loaded exactly when no identifier is loadable |
| Properties.EncodeImagesFacts | models/responder.py:113-124 | GPT-4's loop raises exactly when an existing file cannot be read, with the first such error; otherwise its URIs are exactly the JPEG URIs of the existing files |
| Properties.ExistingImageIsEncoded | models/responder.py:113-122 | if the loop returns and some file exists, at least one URI was added |
| Properties.EncodeImagesAppend | models/responder.py:113-124 | the URIs keep the input order across a concatenation |
| Properties.UnknownKey | models/responder.py:253-255 | any key outside the six gives "Invalid model selected.", with an empty trace and the same answer in every environment |
| Properties.KnownKeyLoadsFirst | models/responder.py:28-32 | for a known key, the first consultation is obtaining that backend's model or client |
| Properties.OuterBoundary | models/responder.py:256-258 | an exception escaping the adapter becomes "An error occurred while generating the response."; a returned text is passed on unchanged |
| Properties.SetupFailure | models/responder.py:256-258 | a model or client that cannot be obtained gives the generic failure text, before any image is looked at |
| Properties.LlamaVisionWithoutImages | models/responder.py:153-156 | Llama-vision with no images gives the generic failure text (the IndexError of `image_paths[0]`) |
| Properties.PixtralUnreadableImage | models/responder.py:178-185 | an unreadable Pixtral image gives the generic failure text, and the model is not run |
| Properties.Defaults | models/responder.py:23-48 | with the default arguments, Qwen is used, and every image part carries 280 by 280 |
| Properties.GeminiResponse | models/responder.py:71-104 | Gemini runs its model whenever some image is loadable, and its request is the query, then exactly the loadable images. The no-images text comes back, without running the model, exactly when no image is loadable. An exception gives the processing-failure text with the error; an empty answer gives the Gemini no-text sentinel; any other answer is returned |
| Properties.ProcessingFailedIsDistinct | models/responder.py:104 | the processing-failure text differs from every fixed sentinel, whatever the error text |
| Properties.Gpt4Response | models/responder.py:106-146 | GPT-4 returns the no-images text, without running the model, exactly when no file exists. A read failure gives the processing-failure text, without running the model. When every read succeeds and some file exists, the model runs; the request is the query then the JPEG URIs; the answer is returned as is, even when empty, and an exception gives the processing-failure text |
| Properties.QwenRequest | models/responder.py:29-69 | Qwen runs once, on one image part per identifier in input order, each sized to a multiple of 28 within 28 below the request, then the query as the single text part; an exception gives the generic failure text |
| Properties.LlamaVisionFirstImageOnly | models/responder.py:153-156 | Llama-vision answers as if only the first image had been given |
| Properties.LlamaVisionReadsOnlyFirst | models/responder.py:153-156 | Llama-vision opens no identifier but the first |
| Properties.PixtralFirstImageOnly | models/responder.py:187-193 | Pixtral answers as if only the first image had been given |
| Properties.PixtralReadsOnlyFirst | models/responder.py:187-193 | Pixtral reads no identifier but the first |
| Properties.MolmoFirstImageOnly | models/responder.py:203-213 | Molmo answers as if only the first image had been given |
| Properties.MolmoReadsOnlyFirst | models/responder.py:203-213 | Molmo probes, opens and closes no identifier but the first |
| Properties.PixtralRequest | models/responder.py:178-198 | Pixtral's request goes to Pixtral's model and is the query, then at most one image: "data:image/" + the first file's extension without its dot + ";base64," + its encoding. With no images the request is the query alone |
| Properties.PixtralVersusGpt4Url | models/responder.py:118-121 | GPT-4 always labels its URI JPEG; Pixtral's URI agrees with it exactly when the file's extension is `jpeg` |
| Properties.MolmoWithoutImages | models/responder.py:215-216 | Molmo returns the no-images text, without running the model, exactly when the first image does not load; nothing is then closed |
| Properties.MolmoClosesOpenedImages | models/responder.py:218-252 | once Molmo's image is open, the model runs on the query and that one image. The image is then closed exactly once, as the last step, whether the model returned or raised; no other image is closed. An exception gives the processing-failure text |

## Left out

- Model loading and caching (`load_model` in `models/model_loader.py`) is not part of this model. It is the `setup` oracle, which returns or raises. The same oracle covers Qwen's import of `qwen_vl_utils`, Molmo's `model.half()`, and GPT-4's reading of `OPENAI_API_KEY` and construction of the `OpenAI` client.
- Chat templating, tokenisation, tensor device moves, half precision, generation, token-prefix trimming and decoding are opaque library behaviour with floating point. They are folded into the `generate` oracle. Its request records what the adapter decided: content parts, their order, paths, sizes and URIs.
- The OpenAI and Gemini network calls are in the `generate` oracle too. So are `response.text`, `choices[0].message.content` and `outputs[0].outputs[0].text`.
- File reads and base64 are the `encode` oracle. `Image.open`, and for Molmo and Llama-vision the pixel decoding of `.convert("RGB")`, is the `open` oracle. They are independent of `pathExists`, as the real file system can be.
- GPT-4's `message.content` can be `None` in the real SDK, and `generate_response` would then return `None`. The `generate` oracle always yields a string, so this case is not modelled.
- Logging is a side effect that does not affect the returned value, and is not modelled.
- `session_id` is accepted but never used, and is not a parameter of the model.
- The fixed generation limits (`max_new_tokens` 128, 512 and 200; `max_tokens` 1024) and the model name `gpt-4o` are passed to opaque calls. They are not part of the model's requests.
- `Image.close()` is assumed not to raise.
- Gemini's `Image.open` is lazy and is not followed by `.convert("RGB")`. Its pixel data is decoded inside the `generate` oracle. So a Gemini image whose header parses but whose data is corrupt counts as loaded, and shows up as that oracle raising, which gives the processing-failure text.
- Paths follow POSIX `os.path` (`posixpath`). Windows `ntpath` joins with `\` and treats drive letters and `\` as absolute; that is not modelled.
- Qwen's `process_vision_info` reads every listed image file inside Qwen's run. Those reads happen inside the `generate` oracle and leave no `Probe` or `Open` events in the trace. A missing Qwen image can only show up as that oracle raising, which then gives the generic failure text.
- Images opened by Gemini and Llama-vision are never explicitly closed in the code. The model records no close for them.

=== FILE: backends.dfy ===
/** The closed set of inference backends and the string keys that select them. */
module Backends {
  import opened Outcomes

  datatype Backend = Qwen | Gemini | Gpt4 | LlamaVision | Pixtral | Molmo

  /** The configuration key the dispatcher compares against for each backend. */
  function Key(b: Backend): string {
    match b
    case Qwen => "qwen"
    case Gemini => "gemini"
    case Gpt4 => "gpt4"
    case LlamaVision => "llama-vision"
    case Pixtral => "pixtral"
    case Molmo => "molmo"
  }

  const KnownKeys: set<string> := {"qwen", "gemini", "gpt4", "llama-vision", "pixtral", "molmo"}

  /** The chain of equality tests on `model_choice`: the first key that matches
      selects its backend, and no match selects nothing. */
  function ParseKey(key: string): (r: Option<Backend>)
    ensures r.Some? ==> Key(r.value) == key
    ensures r.None? <==> key !in KnownKeys
  {
    if key == "qwen" then Some(Qwen)
    else if key == "gemini" then Some(Gemini)
    else if key == "gpt4" then Some(Gpt4)
    else if key == "llama-vision" then Some(LlamaVision)
    else if key == "pixtral" then Some(Pixtral)
    else if key == "molmo" then Some(Molmo)
    else None
  }

  /** Every backend is reachable through its own key, and only through it. */
  lemma ParseKeyRoundTrip(b: Backend, key: string)
    ensures ParseKey(Key(b)) == Some(b)
    ensures ParseKey(key) == Some(b) <==> key == Key(b)
  {
  }
}

=== FILE: collect.dfy ===
/** The per-image loop shared by the Gemini, GPT-4 and Molmo adapters: each
    identifier is looked at once, in order, and either skipped, turned into one
    item, or made to raise, which abandons the rest of the loop. */
module Collecting {
  import opened Outcomes
  import opened Requests

  /** Puts the item a step produced (if any) in front of the rest of the loop's items. */
  function Prepend<T>(o: Option<T>, rest: Outcome<seq<T>>): Outcome<seq<T>> {
    match rest
    case Raise(e) => Raise(e)
    case Return(xs) => Return((if o.Some? then [o.value] else []) + xs)
  }

  function Collect<T>(step: string -> Run<Option<T>>, paths: seq<string>): (r: Run<seq<T>>)
    ensures r.out.Return? ==> |r.out.value| <= |paths|
    decreases |paths|
  {
    if |paths| == 0 then Run(Return([]), [])
    else
      var s := step(paths[0]);
      match s.out
      case Raise(e) => Run(Raise(e), s.trace)
      case Return(o) =>
        var rest := Collect(step, paths[1..]);
        Run(Prepend(o, rest.out), s.trace + rest.trace)
  }

  /** Running one loop after another: the second only runs when the first returned. */
  function Then<T>(a: Run<seq<T>>, b: Run<seq<T>>): Run<seq<T>> {
    match a.out
    case Raise(_) => a
    case Return(xs) =>
      match b.out
      case Raise(e) => Run(Raise(e), a.trace + b.trace)
      case Return(ys) => Run(Return(xs + ys), a.trace + b.trace)
  }

  /** The loop over a concatenation is the loop over the first part followed by
      the loop over the second: items keep their input order, and a step that
      raises stops everything after it. */
  lemma {:induction false} CollectAppend<T>(step: string -> Run<Option<T>>, xs: seq<string>, ys: seq<string>)
    ensures Collect(step, xs + ys) == Then(Collect(step, xs), Collect(step, ys))
    decreases |xs|
  {
    if |xs| == 0 {
      assert xs + ys == ys;
      var b := Collect(step, ys);
      assert [] + b.trace == b.trace;
      if b.out.Return? {
        assert [] + b.out.value == b.out.value;
      }
    } else {
      assert (xs + ys)[0] == xs[0];
      assert (xs + ys)[1..] == xs[1..] + ys;
      CollectAppend(step, xs[1..], ys);
      var s := step(xs[0]);
      if s.out.Return? {
        var a, b := Collect(step, xs[1..]), Collect(step, ys);
        if a.out.Return? && b.out.Return? {
          var o := s.out.value;
          assert (if o.Some? then [o.value] else []) + (a.out.value + b.out.value)
              == ((if o.Some? then [o.value] else []) + a.out.value) + b.out.value;
        }
        assert s.trace + (a.trace + b.trace) == (s.trace + a.trace) + b.trace;
      }
    }
  }

  /** The loop over one identifier is just that identifier's step. */
  lemma CollectSingle<T>(step: string -> Run<Option<T>>, p: string)
    ensures Collect(step, [p]).trace == step(p).trace
    ensures step(p).out.Raise? ==> Collect(step, [p]).out == Raise(step(p).out.error)
    ensures step(p).out == Return(None) ==> Collect(step, [p]).out == Return([])
    ensures step(p).out.Return? && step(p).out.value.Some? ==>
              Collect(step, [p]).out == Return([step(p).out.value.value])
  {
    assert [p][1..] == [];
    var s := step(p);
    assert s.trace + [] == s.trace;
    if s.out.Return? && s.out.value.Some? {
      assert [s.out.value.value] + [] == [s.out.value.value];
    }
  }

  /** When no step raises, the loop returns, and its items are exactly the items
      the steps produced. */
  lemma {:induction false} CollectItems<T>(step: string -> Run<Option<T>>, paths: seq<string>, x: T)
    requires forall i :: 0 <= i < |paths| ==> step(paths[i]).out.Return?
    ensures Collect(step, paths).out.Return?
    ensures x in Collect(step, paths).out.value <==>
              exists i :: 0 <= i < |paths| && step(paths[i]).out == Return(Some(x))
    decreases |paths|
  {
    if |paths| > 0 {
      assert forall i :: 0 <= i < |paths| - 1 ==> paths[1..][i] == paths[i + 1];
      CollectItems(step, paths[1..], x);
      if exists i :: 0 <= i < |paths| && step(paths[i]).out == Return(Some(x)) {
        var i :| 0 <= i < |paths| && step(paths[i]).out == Return(Some(x));
        if i > 0 {
          assert paths[1..][i - 1] == paths[i];
        }
      }
    }
  }

  /** Every consultation the loop makes is one a step made for some listed identifier. */
  lemma {:induction false} CollectTrace<T>(step: string -> Run<Option<T>>, paths: seq<string>, e: Event)
    ensures e in Collect(step, paths).trace ==>
              exists i :: 0 <= i < |paths| && e in step(paths[i]).trace
    decreases |paths|
  {
    if |paths| > 0 && e in Collect(step, paths).trace && e !in step(paths[0]).trace {
      CollectTrace(step, paths[1..], e);
      var i :| 0 <= i < |paths[1..]| && e in step(paths[1..][i]).trace;
      assert paths[1..][i] == paths[i + 1];
    }
  }

  /** The loop raises exactly when some step raises, and then with the error of
      the first step that does. */
  lemma {:induction false} CollectRaise<T>(step: string -> Run<Option<T>>, paths: seq<string>)
    ensures Collect(step, paths).out.Raise? <==>
              exists i :: 0 <= i < |paths| && step(paths[i]).out.Raise?
    ensures Collect(step, paths).out.Raise? ==>
              exists i :: 0 <= i < |paths| && step(paths[i]).out.Raise?
                && Collect(step, paths).out.error == step(paths[i]).out.error
                && forall j :: 0 <= j < i ==> step(paths[j]).out.Return?
    decreases |paths|
  {
    if |paths| > 0 {
      assert forall i :: 0 <= i < |paths| - 1 ==> paths[1..][i] == paths[i + 1];
      CollectRaise(step, paths[1..]);
      if step(paths[0]).out.Return? && Collect(step, paths).out.Raise? {
        var i :| 0 <= i < |paths[1..]| && step(paths[1..][i]).out.Raise?
          && Collect(step, paths[1..]).out.error == step(paths[1..][i]).out.error
          && forall j :: 0 <= j < i ==> step(paths[1..][j]).out.Return?;
        assert step(paths[i + 1]).out.Raise?;
        forall j | 0 <= j < i + 1
          ensures step(paths[j]).out.Return?
        {
          if j > 0 {
            assert paths[j] == paths[1..][j - 1];
          }
        }
      }
      if exists i :: 0 <= i < |paths| && step(paths[i]).out.Raise? {
        var i :| 0 <= i < |paths| && step(paths[i]).out.Raise?;
        if i > 0 {
          assert paths[1..][i - 1] == paths[i];
        }
      }
    }
  }
}

=== FILE: outcomes.dfy ===
/** Failure-carrying values used throughout the model of the responder. */
module Outcomes {

  /** The conventional Some/None datatype. */
  datatype Option<+T> = None | Some(value: T)

  /** What a call into Python code does: it either returns a value or raises an
      exception, whose `str()` is kept as `error`. */
  datatype Outcome<+T> = Return(value: T) | Raise(error: string)
}

=== FILE: paths.dfy ===
/** POSIX path handling the responder relies on: joining an identifier onto the
    static asset root (`os.path.join`) and finding a file's extension
    (`os.path.splitext`), plus the base64 data URIs built from them. */
module Paths {

  const StaticRoot: string := "static"

  predicate IsAbsolute(p: string) {
    |p| > 0 && p[0] == '/'
  }

  /** `os.path.join("static", p)`: an absolute `p` discards the root; otherwise a
      single separator is inserted (also when `p` is empty). */
  function Join(p: string): (r: string)
    ensures r == p <==> IsAbsolute(p)
    ensures IsAbsolute(r) <==> IsAbsolute(p)
  {
    if IsAbsolute(p) then p else StaticRoot + "/" + p
  }

  /** The joined path ends with the identifier; a relative one gets the
      `static/` prefix. */
  lemma JoinShape(p: string)
    ensures |p| <= |Join(p)| && Join(p)[|Join(p)| - |p|..] == p
    ensures !IsAbsolute(p) ==> Join(p)[..7] == "static/" && |Join(p)| == |p| + 7
  {
  }

  /** Distinct identifiers resolve to distinct files, so a joined path names the
      identifier it came from. */
  lemma JoinInjective(p: string, q: string)
    ensures Join(p) == Join(q) <==> p == q
  {
    if Join(p) == Join(q) && !IsAbsolute(p) && !IsAbsolute(q) {
      assert p == Join(p)[7..];
      assert q == Join(q)[7..];
    }
  }

  /** `str.rfind` for one character: the last index holding `c`, or -1. */
  function LastIndexOf(s: string, c: char): (r: int)
    ensures -1 <= r < |s|
    ensures r >= 0 ==> s[r] == c
    ensures forall k :: r < k < |s| ==> s[k] != c
    decreases |s|
  {
    if |s| == 0 then -1
    else if s[|s| - 1] == c then |s| - 1
    else LastIndexOf(s[..|s| - 1], c)
  }

  /** The last path component of `p` holds a dot with some non-dot character
      before it in that component. */
  ghost predicate HasExtension(p: string) {
    exists k, i :: 0 <= k < i < |p| && p[k] != '.' && p[i] == '.'
      && (forall j :: k <= j < |p| ==> p[j] != '/')
  }

  /** `os.path.splitext`: the extension starts at the last dot of the last path
      component, unless everything before that dot in the component is dots too
      (so `.bashrc` has no extension). */
  function Splitext(p: string): (r: (string, string))
    ensures r.0 + r.1 == p
    ensures r.1 == [] || (r.1[0] == '.' && '.' !in r.1[1..] && '/' !in r.1)
    ensures r.1 != [] <==> HasExtension(p)
  {
    var sep := LastIndexOf(p, '/');
    var dot := LastIndexOf(p, '.');
    if dot > sep && exists k :: sep < k < dot && p[k] != '.' then
      assert forall k :: dot < k < |p| ==> p[k] != '.';
      assert p[..dot] + p[dot..] == p;
      (p[..dot], p[dot..])
    else
      (p, [])
  }

  /** `os.path.splitext(p)[1][1:]`: the extension without its dot. */
  function Extension(p: string): (r: string)
    ensures '.' !in r && '/' !in r
    ensures r != [] ==> p == Splitext(p).0 + "." + r
    ensures Splitext(p).1 == [] ==> r == []
    ensures Splitext(p).1 != [] ==> Splitext(p).1 == "." + r
  {
    var ext := Splitext(p).1;
    if |ext| == 0 then ext else ext[1..]
  }

  /** The last index holding `c` is determined by the characters of `s`. */
  lemma LastIndexOfAt(s: string, c: char, i: int)
    requires -1 <= i < |s|
    requires i >= 0 ==> s[i] == c
    requires forall k :: i < k < |s| ==> s[k] != c
    ensures LastIndexOf(s, c) == i
  {
  }

  lemma ExtensionExamples()
    ensures Extension("static/cat.png") == "png"
    ensures Extension("static/.hidden") == ""
    ensures Extension("static/v1.2/noext") == ""
  {
    var a := "static/cat.png";
    LastIndexOfAt(a, '/', 6);
    LastIndexOfAt(a, '.', 10);
    assert a[7] != '.';
    assert a[10..] == ".png";
    var b := "static/.hidden";
    LastIndexOfAt(b, '/', 6);
    LastIndexOfAt(b, '.', 7);
    var c := "static/v1.2/noext";
    LastIndexOfAt(c, '/', 11);
    LastIndexOfAt(c, '.', 9);
  }

  const Base64Marker: string := ";base64,"

  /** A base64 image data URI with the given MIME subtype. */
  function DataUrl(subtype: string, payload: string): (r: string)
    ensures |r| == 19 + |subtype| + |payload|
    ensures r[..11] == "data:image/"
    ensures r[11..11 + |subtype|] == subtype
    ensures r[11 + |subtype|..19 + |subtype|] == Base64Marker
    ensures r[|r| - |payload|..] == payload
  {
    "data:image/" + subtype + Base64Marker + payload
  }

  /** Two data URIs carrying the same payload agree exactly when their subtypes do. */
  lemma DataUrlSubtype(s1: string, s2: string, payload: string)
    ensures DataUrl(s1, payload) == DataUrl(s2, payload) <==> s1 == s2
  {
    if DataUrl(s1, payload) == DataUrl(s2, payload) {
      var u := DataUrl(s1, payload);
      assert |s1| == |s2|;
      assert s1 == u[11..11 + |s1|];
      assert s2 == u[11..11 + |s2|];
    }
  }
}

=== FILE: properties.dfy ===
/** What `generate_response` promises, stated over every environment. */
module Properties {
  import opened Outcomes
  import opened Backends
  import opened Paths
  import opened Sizing
  import opened Requests
  import opened Collecting
  import opened Responder

  /** Some consultation in the trace runs a backend. */
  predicate CallsBackend(trace: seq<Event>) {
    exists i :: 0 <= i < |trace| && trace[i].Invoke?
  }

  // ---------------------------------------------------------------------------
  // The image-gathering loops

  /** Gemini's and Molmo's loop never raises; it keeps exactly the loadable
      identifiers' images and consults nothing but existence probes and opens of
      the listed identifiers. */
  lemma LoadImagesFacts(env: Env, paths: seq<string>)
    ensures LoadImages(env, paths).out.Return?
    ensures forall img :: img in LoadImages(env, paths).out.value <==>
              exists i :: 0 <= i < |paths| && Loadable(env, paths[i]) && img == Image(Join(paths[i]))
    ensures forall e :: e in LoadImages(env, paths).trace ==>
              (e.Probe? || e.Open?) && exists i :: 0 <= i < |paths| && e.path == Join(paths[i])
  {
    var step := p => OpenStep(env, p);
    forall img
      ensures img in LoadImages(env, paths).out.value <==>
              exists i :: 0 <= i < |paths| && Loadable(env, paths[i]) && img == Image(Join(paths[i]))
    {
      CollectItems(step, paths, img);
    }
    forall e | e in LoadImages(env, paths).trace
      ensures (e.Probe? || e.Open?) && exists i :: 0 <= i < |paths| && e.path == Join(paths[i])
    {
      CollectTrace(step, paths, e);
    }
  }

  /** The loaded images keep the input order: loading a concatenation loads each
      part in turn. */
  lemma LoadImagesAppend(env: Env, xs: seq<string>, ys: seq<string>)
    ensures LoadImages(env, xs + ys).out.value
         == LoadImages(env, xs).out.value + LoadImages(env, ys).out.value
    ensures LoadImages(env, xs + ys).trace
         == LoadImages(env, xs).trace + LoadImages(env, ys).trace
  {
    CollectAppend(p => OpenStep(env, p), xs, ys);
    LoadImagesFacts(env, xs);
    LoadImagesFacts(env, ys);
  }

  /** One identifier contributes its image exactly when it is loadable. */
  lemma LoadImagesSingle(env: Env, p: string)
    ensures LoadImages(env, [p]).out.value == if Loadable(env, p) then [Image(Join(p))] else []
  {
    CollectSingle(p => OpenStep(env, p), p);
  }

  /** Nothing is loaded exactly when no identifier is loadable. */
  lemma LoadImagesEmpty(env: Env, paths: seq<string>)
    ensures LoadImages(env, paths).out.value == [] <==>
              forall i :: 0 <= i < |paths| ==> !Loadable(env, paths[i])
  {
    var imgs := LoadImages(env, paths).out.value;
    LoadImagesFacts(env, paths);
    if imgs != [] {
      assert imgs[0] in imgs;
    }
    forall i | 0 <= i < |paths| && Loadable(env, paths[i])
      ensures imgs != []
    {
      assert Image(Join(paths[i])) in imgs;
    }
  }

  /** GPT-4's loop raises exactly when an existing image cannot be read, with the
      first such error; otherwise its URIs are exactly the JPEG data URIs of the
      existing images, and it consults only the listed identifiers. */
  lemma EncodeImagesFacts(env: Env, paths: seq<string>)
    ensures EncodeImages(env, paths).out.Raise? <==>
              exists i :: 0 <= i < |paths| && env.pathExists(Join(paths[i])) && env.encode(Join(paths[i])).Raise?
    ensures EncodeImages(env, paths).out.Raise? ==>
              exists i :: 0 <= i < |paths| && env.pathExists(Join(paths[i])) && env.encode(Join(paths[i])).Raise?
                && EncodeImages(env, paths).out.error == env.encode(Join(paths[i])).error
                && forall j :: 0 <= j < i ==> !(env.pathExists(Join(paths[j])) && env.encode(Join(paths[j])).Raise?)
    ensures EncodeImages(env, paths).out.Return? ==>
              forall u :: u in EncodeImages(env, paths).out.value <==>
                exists i :: 0 <= i < |paths| && env.pathExists(Join(paths[i]))
                  && u == DataUrl("jpeg", env.encode(Join(paths[i])).value)
    ensures forall e :: e in EncodeImages(env, paths).trace ==>
              (e.Probe? || e.Read?) && exists i :: 0 <= i < |paths| && e.path == Join(paths[i])
  {
    var step := p => EncodeStep(env, p);
    CollectRaise(step, paths);
    if EncodeImages(env, paths).out.Return? {
      forall u
        ensures u in EncodeImages(env, paths).out.value <==>
                exists i :: 0 <= i < |paths| && env.pathExists(Join(paths[i]))
                  && u == DataUrl("jpeg", env.encode(Join(paths[i])).value)
      {
        CollectItems(step, paths, u);
      }
    }
    forall e | e in EncodeImages(env, paths).trace
      ensures (e.Probe? || e.Read?) && exists i :: 0 <= i < |paths| && e.path == Join(paths[i])
    {
      CollectTrace(step, paths, e);
    }
  }

  /** When the loop returns, every existing image has contributed a data URI. */
  lemma ExistingImageIsEncoded(env: Env, paths: seq<string>, i: int)
    requires 0 <= i < |paths| && env.pathExists(Join(paths[i]))
    requires EncodeImages(env, paths).out.Return?
    ensures |EncodeImages(env, paths).out.value| > 0
  {
    EncodeImagesFacts(env, paths);
    assert DataUrl("jpeg", env.encode(Join(paths[i])).value) in EncodeImages(env, paths).out.value;
  }

  /** The data URIs keep the input order while no read fails. */
  lemma EncodeImagesAppend(env: Env, xs: seq<string>, ys: seq<string>)
    requires EncodeImages(env, xs).out.Return? && EncodeImages(env, ys).out.Return?
    ensures EncodeImages(env, xs + ys).out
         == Return(EncodeImages(env, xs).out.value + EncodeImages(env, ys).out.value)
  {
    CollectAppend(p => EncodeStep(env, p), xs, ys);
  }

  // ---------------------------------------------------------------------------
  // Dispatch and the outer failure boundary

  /** An unknown key yields the fixed invalid-selection text, and nothing in the
      environment is consulted, so the answer is the same in every environment. */
  lemma UnknownKey(env: Env, other: Env, images: seq<string>, query: string, height: int, width: int, key: string)
    requires key !in KnownKeys
    ensures GenerateResponse(env, images, query, height, width, key) == Response(InvalidModel, [])
    ensures GenerateResponse(env, images, query, height, width, key)
         == GenerateResponse(other, images, query, height, width, key)
  {
  }

  /** A known key always consults that backend's model handle (or client) first. */
  lemma KnownKeyLoadsFirst(env: Env, images: seq<string>, query: string, height: int, width: int, b: Backend)
    ensures GenerateResponse(env, images, query, height, width, Key(b)).trace[0] == Setup(b)
  {
  }

  /** The outer boundary: whatever escapes an adapter becomes the one generic
      failure text, and whatever the adapter returns is passed on unchanged. */
  lemma OuterBoundary(env: Env, images: seq<string>, query: string, height: int, width: int, b: Backend)
    ensures Adapter(env, b, images, query, height, width).out.Raise? ==>
              GenerateResponse(env, images, query, height, width, Key(b)).text == GenerationFailed
    ensures Adapter(env, b, images, query, height, width).out.Return? ==>
              GenerateResponse(env, images, query, height, width, Key(b)).text
              == Adapter(env, b, images, query, height, width).out.value
  {
  }

  /** A model handle or client that cannot be obtained fails the whole request,
      before any image is looked at. */
  lemma SetupFailure(env: Env, images: seq<string>, query: string, height: int, width: int, b: Backend)
    requires env.setup(b).Raise?
    ensures GenerateResponse(env, images, query, height, width, Key(b))
         == Response(GenerationFailed, [Setup(b)])
  {
  }

  /** Llama-vision indexes the first image unconditionally: with no images the
      IndexError reaches the outer boundary. */
  lemma LlamaVisionWithoutImages(env: Env, query: string, height: int, width: int)
    requires env.setup(LlamaVision).Return?
    ensures GenerateResponse(env, [], query, height, width, "llama-vision")
         == Response(GenerationFailed, [Setup(LlamaVision)])
  {
  }

  /** A Pixtral image that cannot be read is not caught inside the adapter: the
      model is never run and the generic failure text comes back. */
  lemma PixtralUnreadableImage(env: Env, images: seq<string>, query: string, height: int, width: int)
    requires env.setup(Pixtral).Return?
    requires |images| > 0 && env.encode(Join(images[0])).Raise?
    ensures GenerateResponse(env, images, query, height, width, "pixtral")
         == Response(GenerationFailed, [Setup(Pixtral), Read(Join(images[0]))])
  {
  }

  /** Called with its defaults, the responder uses Qwen at 280 by 280 pixels,
      a size already aligned to the 28-pixel grid. */
  lemma Defaults(env: Env, images: seq<string>, query: string)
    requires env.setup(Qwen).Return?
    ensures var r := GenerateResponse(env, images, query, DefaultSize, DefaultSize, DefaultKey);
            && r.trace[0] == Setup(Qwen)
            && forall i :: 0 <= i < |images| ==>
                 r.trace[1].call.parts[i] == ImageFile(Join(images[i]), 280, 280)
  {
  }

  // ---------------------------------------------------------------------------
  // Gemini and GPT-4

  /** Gemini sends the query first and then the images that loaded, in input
      order; with none it answers the no-images text without running the model;
      an empty answer and a failure get their own texts. */
  lemma GeminiResponse(env: Env, images: seq<string>, query: string, height: int, width: int)
    requires env.setup(Gemini).Return?
    ensures var r := GenerateResponse(env, images, query, height, width, "gemini");
            var loaded := LoadImages(env, images);
            var call := Call(Gemini, [Text(query)] + ObjectParts(loaded.out.value));
            && (forall img :: ImageObject(img) in call.parts[1..] <==>
                  exists i :: 0 <= i < |images| && Loadable(env, images[i]) && img == Image(Join(images[i])))
            && ((forall i :: 0 <= i < |images| ==> !Loadable(env, images[i])) <==> r.text == NoImages && !CallsBackend(r.trace))
            && ((exists i :: 0 <= i < |images| && Loadable(env, images[i])) ==> CallsBackend(r.trace))
            && (CallsBackend(r.trace) ==>
                  && r.trace == [Setup(Gemini)] + loaded.trace + [Invoke(call)]
                  && (env.generate(call).Raise? ==> r.text == ProcessingFailed(env.generate(call).error))
                  && (env.generate(call) == Return("") ==> r.text == GeminiNoText)
                  && (env.generate(call).Return? && env.generate(call).value != "" ==> r.text == env.generate(call).value))
  {
    var loaded := LoadImages(env, images);
    LoadImagesFacts(env, images);
    var imgs := loaded.out.value;
    var parts := [Text(query)] + ObjectParts(imgs);
    assert parts[1..] == ObjectParts(imgs);
    forall img
      ensures ImageObject(img) in parts[1..] <==> img in imgs
    {
      if ImageObject(img) in parts[1..] {
        var k :| 0 <= k < |imgs| && ObjectParts(imgs)[k] == ImageObject(img);
      }
      if img in imgs {
        var k :| 0 <= k < |imgs| && imgs[k] == img;
        assert ObjectParts(imgs)[k] == ImageObject(img);
      }
    }
    NoInvokeInLoad(env, images);
    CallsBackendAppend([Setup(Gemini)], loaded.trace);
    LoadImagesEmpty(env, images);
    if imgs != [] {
      var r := GenerateResponse(env, images, query, height, width, "gemini");
      var call := Call(Gemini, parts);
      assert r.trace[|r.trace| - 1] == Invoke(call);
      assert CallsBackend(r.trace);
    }
  }

  /** A trace runs a backend exactly when one of its parts does. */
  lemma CallsBackendAppend(a: seq<Event>, b: seq<Event>)
    ensures CallsBackend(a + b) <==> CallsBackend(a) || CallsBackend(b)
  {
    assert forall i :: 0 <= i < |a| ==> (a + b)[i] == a[i];
    assert forall i :: |a| <= i < |a + b| ==> (a + b)[i] == b[i - |a|];
    if CallsBackend(b) {
      var i :| 0 <= i < |b| && b[i].Invoke?;
      assert (a + b)[|a| + i] == b[i];
    }
  }

  /** The adapter-local failure text can be told apart from every fixed text. */
  lemma ProcessingFailedIsDistinct(error: string)
    ensures ProcessingFailed(error) != NoImages
    ensures ProcessingFailed(error) != GenerationFailed
    ensures ProcessingFailed(error) != InvalidModel
    ensures ProcessingFailed(error) != GeminiNoText
  {
    var t := ProcessingFailed(error);
    assert t[0] == 'A' && t[24] == 'p';
  }

  /** The loading loop never runs a backend. */
  lemma NoInvokeInLoad(env: Env, paths: seq<string>)
    ensures !CallsBackend(LoadImages(env, paths).trace)
  {
    LoadImagesFacts(env, paths);
    var t := LoadImages(env, paths).trace;
    forall k | 0 <= k < |t|
      ensures !t[k].Invoke?
    {
      assert t[k] in t;
    }
  }

  /** The encoding loop never runs a backend. */
  lemma NoInvokeInEncode(env: Env, paths: seq<string>)
    ensures !CallsBackend(EncodeImages(env, paths).trace)
  {
    EncodeImagesFacts(env, paths);
    var t := EncodeImages(env, paths).trace;
    forall k | 0 <= k < |t|
      ensures !t[k].Invoke?
    {
      assert t[k] in t;
    }
  }

  /** GPT-4 sends the query first and then one JPEG data URI per existing image,
      in input order. With no existing image it answers the no-images text; a
      read failure answers the processing-failure text; neither runs the model.
      Unlike Gemini, an empty answer is returned as it is. */
  lemma Gpt4Response(env: Env, images: seq<string>, query: string, height: int, width: int)
    requires env.setup(Gpt4).Return?
    ensures var r := GenerateResponse(env, images, query, height, width, "gpt4");
            var encoded := EncodeImages(env, images);
            && ((forall i :: 0 <= i < |images| ==> !env.pathExists(Join(images[i])))
                  <==> r.text == NoImages && !CallsBackend(r.trace))
            && ((encoded.out.Return? && exists i :: 0 <= i < |images| && env.pathExists(Join(images[i]))) ==>
                  CallsBackend(r.trace))
            && (encoded.out.Raise? ==>
                  r.text == ProcessingFailed(encoded.out.error) && !CallsBackend(r.trace))
            && (CallsBackend(r.trace) ==>
                  var call := Call(Gpt4, [Text(query)] + UrlParts(encoded.out.value));
                  && encoded.out.Return?
                  && r.trace == [Setup(Gpt4)] + encoded.trace + [Invoke(call)]
                  && (env.generate(call).Raise? ==> r.text == ProcessingFailed(env.generate(call).error))
                  && (env.generate(call).Return? ==> r.text == env.generate(call).value))
  {
    var r := GenerateResponse(env, images, query, height, width, "gpt4");
    var encoded := EncodeImages(env, images);
    EncodeImagesFacts(env, images);
    NoInvokeInEncode(env, images);
    CallsBackendAppend([Setup(Gpt4)], encoded.trace);
    if encoded.out.Raise? {
      ProcessingFailedIsDistinct(encoded.out.error);
    } else if |encoded.out.value| > 0 {
      var call := Call(Gpt4, [Text(query)] + UrlParts(encoded.out.value));
      assert r.trace[|r.trace| - 1] == Invoke(call);
      assert encoded.out.value[0] in encoded.out.value;
    } else {
      forall i | 0 <= i < |images|
        ensures !env.pathExists(Join(images[i]))
      {
        if env.pathExists(Join(images[i])) {
          ExistingImageIsEncoded(env, images, i);
        }
      }
    }
  }

  // ---------------------------------------------------------------------------
  // Qwen

  /** Qwen runs its model once, on one image part per identifier in input order,
      each carrying the requested size rounded down to a multiple of 28, followed
      by the query as the single text part. */
  lemma QwenRequest(env: Env, images: seq<string>, query: string, height: int, width: int)
    requires env.setup(Qwen).Return?
    ensures var r := GenerateResponse(env, images, query, height, width, "qwen");
            && |r.trace| == 2 && r.trace[1].Invoke? && r.trace[1].call.backend == Qwen
            && var parts := r.trace[1].call.parts;
            && |parts| == |images| + 1
            && (forall i :: 0 <= i < |images| ==>
                  && parts[i].ImageFile? && parts[i].path == Join(images[i])
                  && parts[i].height % 28 == 0 && parts[i].height <= height < parts[i].height + 28
                  && parts[i].width % 28 == 0 && parts[i].width <= width < parts[i].width + 28)
            && parts[|images|] == Text(query)
            && (env.generate(r.trace[1].call).Raise? ==> r.text == GenerationFailed)
            && (env.generate(r.trace[1].call).Return? ==> r.text == env.generate(r.trace[1].call).value)
  {
  }

  // ---------------------------------------------------------------------------
  // Single-image backends

  /** Only identifiers equal to `images[0]` appear in the trace: no other image
      is probed, opened, read or closed. */
  predicate TouchesOnlyFirst(trace: seq<Event>, images: seq<string>) {
    forall e :: e in trace ==>
      && ((e.Probe? || e.Open? || e.Read?) ==> |images| > 0 && e.path == Join(images[0]))
      && (e.Close? ==> |images| > 0 && e.image == Image(Join(images[0])))
  }

  /** Llama-vision answers as if only the first image had been given. */
  lemma LlamaVisionFirstImageOnly(env: Env, images: seq<string>, query: string, height: int, width: int)
    ensures GenerateResponse(env, images, query, height, width, "llama-vision")
         == GenerateResponse(env, Take1(images), query, height, width, "llama-vision")
  {
    assert LlamaVisionAdapter(env, images, query) == LlamaVisionAdapter(env, Take1(images), query);
  }

  /** Llama-vision opens no image but the first. */
  lemma LlamaVisionReadsOnlyFirst(env: Env, images: seq<string>, query: string, height: int, width: int)
    ensures TouchesOnlyFirst(GenerateResponse(env, images, query, height, width, "llama-vision").trace, images)
  {
    var r := LlamaVisionAdapter(env, images, query);
    if env.setup(LlamaVision).Return? && |images| > 0 {
      var full := Join(images[0]);
      assert forall e :: e in r.trace ==> e == Setup(LlamaVision) || e == Open(full) || e.Invoke?;
    }
  }

  /** Pixtral answers as if only the first image had been given. */
  lemma PixtralFirstImageOnly(env: Env, images: seq<string>, query: string, height: int, width: int)
    ensures GenerateResponse(env, images, query, height, width, "pixtral")
         == GenerateResponse(env, Take1(images), query, height, width, "pixtral")
  {
    assert PixtralAdapter(env, images, query) == PixtralAdapter(env, Take1(images), query);
  }

  /** Pixtral reads no image but the first. */
  lemma PixtralReadsOnlyFirst(env: Env, images: seq<string>, query: string, height: int, width: int)
    ensures TouchesOnlyFirst(GenerateResponse(env, images, query, height, width, "pixtral").trace, images)
  {
    var t := GenerateResponse(env, images, query, height, width, "pixtral").trace;
    assert t == PixtralAdapter(env, images, query).trace;
    if env.setup(Pixtral).Return? && |images| > 0 {
      var full := Join(images[0]);
      match env.encode(full)
      case Raise(_) =>
        assert t == [Setup(Pixtral), Read(full)];
      case Return(b) =>
        assert t == [Setup(Pixtral), Read(full), Invoke(Call(Pixtral, [Text(query), ImageUrl(PixtralUrl(full, b))]))];
    }
  }

  /** Molmo answers as if only the first image had been given. */
  lemma MolmoFirstImageOnly(env: Env, images: seq<string>, query: string, height: int, width: int)
    ensures GenerateResponse(env, images, query, height, width, "molmo")
         == GenerateResponse(env, Take1(images), query, height, width, "molmo")
  {
    assert Take1(Take1(images)) == Take1(images);
    assert MolmoAdapter(env, images, query) == MolmoAdapter(env, Take1(images), query);
  }

  /** Molmo probes, opens and closes no image but the first. */
  lemma MolmoReadsOnlyFirst(env: Env, images: seq<string>, query: string, height: int, width: int)
    ensures TouchesOnlyFirst(GenerateResponse(env, images, query, height, width, "molmo").trace, images)
  {
    var t := GenerateResponse(env, images, query, height, width, "molmo").trace;
    assert t == MolmoAdapter(env, images, query).trace;
    if env.setup(Molmo).Return? {
      var loaded := MolmoLoad(env, images);
      var pil := MolmoLoad(env, images).out.value;
      LoadImagesFacts(env, Take1(images));
      assert forall e :: e in loaded.trace ==> (e.Probe? || e.Open?) && e.path == Join(images[0]);
      if pil != [] {
        var call := Call(Molmo, [Text(query)] + ObjectParts(pil));
        assert Closes(pil) == [Close(Image(Join(images[0])))];
        assert t == [Setup(Molmo)] + loaded.trace + [Invoke(call)] + [Close(Image(Join(images[0])))];
      }
    }
  }

  /** Pixtral sends the query first and at most one image, the first one, as a
      data URI whose MIME subtype is the file's extension; with no images it
      runs the model on the query alone. */
  lemma PixtralRequest(env: Env, images: seq<string>, query: string, height: int, width: int)
    requires env.setup(Pixtral).Return?
    requires |images| > 0 ==> env.encode(Join(images[0])).Return?
    ensures var r := GenerateResponse(env, images, query, height, width, "pixtral");
            && r.trace[|r.trace| - 1].Invoke?
            && r.trace[|r.trace| - 1].call.backend == Pixtral
            && var parts := r.trace[|r.trace| - 1].call.parts;
            && (|images| == 0 ==> parts == [Text(query)])
            && (|images| > 0 ==>
                  parts == [Text(query), ImageUrl("data:image/" + Extension(Join(images[0]))
                                                  + ";base64," + env.encode(Join(images[0])).value)])
  {
  }

  /** GPT-4 always labels its data URIs as JPEG, while Pixtral uses the file
      extension: the two agree exactly for files ending in `.jpeg`. */
  lemma PixtralVersusGpt4Url(fullPath: string, payload: string)
    ensures PixtralUrl(fullPath, payload) == DataUrl("jpeg", payload) <==> Extension(fullPath) == "jpeg"
  {
    DataUrlSubtype(Extension(fullPath), "jpeg", payload);
  }

  /** If Molmo's first image does not load, the no-images text comes back before
      the model is run and nothing is closed. */
  lemma MolmoWithoutImages(env: Env, images: seq<string>, query: string, height: int, width: int)
    requires env.setup(Molmo).Return?
    ensures var r := GenerateResponse(env, images, query, height, width, "molmo");
            MolmoLoad(env, images).out.value == [] <==> r.text == NoImages && !CallsBackend(r.trace)
    ensures var r := GenerateResponse(env, images, query, height, width, "molmo");
            MolmoLoad(env, images).out.value == [] ==> forall e :: e in r.trace ==> !e.Close?
  {
    var r := GenerateResponse(env, images, query, height, width, "molmo");
    var loaded := MolmoLoad(env, images);
    LoadImagesFacts(env, Take1(images));
    NoInvokeInLoad(env, Take1(images));
    CallsBackendAppend([Setup(Molmo)], loaded.trace);
    if MolmoLoad(env, images).out.value != [] {
      assert CallsBackend(r.trace) by {
        assert r.trace[|loaded.trace| + 1].Invoke?;
      }
    }
  }

  /** Once Molmo's image is open, the model runs and the image is then closed
      exactly once, as the last step, whether the model returned or raised; a
      failure becomes the processing-failure text. */
  lemma MolmoClosesOpenedImages(env: Env, images: seq<string>, query: string, height: int, width: int)
    requires env.setup(Molmo).Return?
    requires MolmoLoad(env, images).out.value != []
    ensures var r := GenerateResponse(env, images, query, height, width, "molmo");
            var img := Image(Join(images[0]));
            && multiset(r.trace)[Close(img)] == 1
            && (forall other :: other != img ==> multiset(r.trace)[Close(other)] == 0)
            && r.trace[|r.trace| - 1] == Close(img)
            && r.trace[|r.trace| - 2].Invoke?
            && r.trace[|r.trace| - 2].call == Call(Molmo, [Text(query), ImageObject(img)])
            && (env.generate(r.trace[|r.trace| - 2].call).Raise? ==>
                  r.text == ProcessingFailed(env.generate(r.trace[|r.trace| - 2].call).error))
            && (env.generate(r.trace[|r.trace| - 2].call).Return? ==>
                  r.text == env.generate(r.trace[|r.trace| - 2].call).value)
  {
    var r := GenerateResponse(env, images, query, height, width, "molmo");
    var loaded := MolmoLoad(env, images);
    var img := Image(Join(images[0]));
    LoadImagesFacts(env, Take1(images));
    var call := Call(Molmo, [Text(query)] + ObjectParts([img]));
    assert Closes([img]) == [Close(img)];
    assert r.trace == [Setup(Molmo)] + loaded.trace + [Invoke(call)] + [Close(img)];
    forall other
      ensures multiset(loaded.trace)[Close(other)] == 0
    {
      assert Close(other) !in loaded.trace;
    }
  }
}

=== FILE: requests.dfy ===
/** The data exchanged between the responder and the code it calls: image
    handles, the parts of a prompt, the call made to a backend, the record of
    every external consultation, and the environment that answers them. */
module Requests {
  import opened Outcomes
  import opened Backends

  /** An opened (and RGB-converted) PIL image, identified by the file it came from. */
  datatype Image = Image(path: string)

  /** One part of the content handed to a backend. */
  datatype Part =
    | Text(text: string)
      /** a file path with the size the visual preprocessor is to resize it to */
    | ImageFile(path: string, height: int, width: int)
      /** an image already decoded in memory */
    | ImageObject(image: Image)
      /** an image passed by URL, here always a base64 data URI */
    | ImageUrl(url: string)

  /** The request one backend's model or client is invoked with. */
  datatype Call = Call(backend: Backend, parts: seq<Part>)

  /** One consultation of code outside the responder, in the order made. */
  datatype Event =
      /** obtaining the backend's model handle (or API client) */
    | Setup(backend: Backend)
      /** `os.path.exists` */
    | Probe(path: string)
      /** `Image.open` (and `.convert("RGB")`) */
    | Open(path: string)
      /** reading the file and base64-encoding its bytes */
    | Read(path: string)
      /** running the backend on a request */
    | Invoke(call: Call)
      /** `Image.close` */
    | Close(image: Image)

  /** The answers of the outside world. Each oracle either returns or raises. */
  datatype Env = Env(
    setup: Backend -> Outcome<()>,
    pathExists: string -> bool,
    open: string -> Outcome<()>,
    encode: string -> Outcome<string>,
    generate: Call -> Outcome<string>)

  /** A computation's outcome together with the consultations it made. */
  datatype Run<+T> = Run(out: Outcome<T>, trace: seq<Event>)

  /** The value `generate_response` returns, with the consultations behind it. */
  datatype Response = Response(text: string, trace: seq<Event>)

  // The fixed texts the responder returns. The longer ones are written as two
  // literals so that the verifier can look at their individual characters.
  const InvalidModel: string := "Invalid model selected."
  const GenerationFailed: string := "An error occurred while " + "generating the response."
  const NoImages: string := "No images could be loaded " + "for analysis."
  const GeminiNoText: string := "The Gemini model did not " + "generate any text response."
  const ProcessingFailedPrefix: string := "An error occurred while " + "processing the images: "
  /** `str()` of the IndexError raised by `image_paths[0]` on an empty list. */
  const IndexOutOfRange: string := "list index out of range"

  /** The adapter-local failure text, which carries the exception's text. */
  function ProcessingFailed(error: string): string {
    ProcessingFailedPrefix + error
  }

  function ObjectParts(images: seq<Image>): seq<Part> {
    seq(|images|, i requires 0 <= i < |images| => ImageObject(images[i]))
  }

  function UrlParts(urls: seq<string>): seq<Part> {
    seq(|urls|, i requires 0 <= i < |urls| => ImageUrl(urls[i]))
  }

  function Closes(images: seq<Image>): seq<Event> {
    seq(|images|, i requires 0 <= i < |images| => Close(images[i]))
  }

  /** Python's `xs[:1]`. */
  function Take1<T>(xs: seq<T>): seq<T> {
    if |xs| == 0 then [] else xs[..1]
  }
}

=== FILE: responder.dfy ===
/** `generate_response`: dispatch on the backend key, the request each adapter
    builds, its sentinels and inner failure boundary, and the outer failure
    boundary that turns every escaping exception into one fixed text. */
module Responder {
  import opened Outcomes
  import opened Backends
  import opened Paths
  import opened Sizing
  import opened Requests
  import opened Collecting

  /** An identifier Gemini and Molmo can use: its joined path exists and opens. */
  predicate Loadable(env: Env, p: string) {
    env.pathExists(Join(p)) && env.open(Join(p)).Return?
  }

  /** Gemini's and Molmo's per-image step: probe the joined path, then open it;
      a missing file or an image that fails to open is skipped, never raised. */
  function OpenStep(env: Env, p: string): (r: Run<Option<Image>>)
    ensures r.out.Return?
    ensures r.out.value.Some? <==> Loadable(env, p)
    ensures r.out.value.Some? ==> r.out.value.value == Image(Join(p))
  {
    var full := Join(p);
    if !env.pathExists(full) then Run(Return(None), [Probe(full)])
    else
      match env.open(full)
      case Raise(_) => Run(Return(None), [Probe(full), Open(full)])
      case Return(_) => Run(Return(Some(Image(full))), [Probe(full), Open(full)])
  }

  /** GPT-4's per-image step: probe the joined path, then read and encode it
      into a JPEG data URI; a missing file is skipped, a failing read raises. */
  function EncodeStep(env: Env, p: string): (r: Run<Option<string>>)
    ensures r.out.Raise? <==> env.pathExists(Join(p)) && env.encode(Join(p)).Raise?
    ensures r.out == Return(None) <==> !env.pathExists(Join(p))
    ensures r.out.Return? && r.out.value.Some? ==>
              r.out.value.value == DataUrl("jpeg", env.encode(Join(p)).value)
  {
    var full := Join(p);
    if !env.pathExists(full) then Run(Return(None), [Probe(full)])
    else
      match env.encode(full)
      case Raise(e) => Run(Raise(e), [Probe(full), Read(full)])
      case Return(b) => Run(Return(Some(DataUrl("jpeg", b))), [Probe(full), Read(full)])
  }

  /** The images Gemini and Molmo manage to open from `paths`, with the trace. */
  function LoadImages(env: Env, paths: seq<string>): (r: Run<seq<Image>>)
    ensures r.out.Return?
    ensures |r.out.value| <= |paths|
  {
    CollectRaise(p => OpenStep(env, p), paths);
    Collect(p => OpenStep(env, p), paths)
  }

  /** The data URIs GPT-4 builds from `paths`, with the trace. */
  function EncodeImages(env: Env, paths: seq<string>): (r: Run<seq<string>>)
    ensures r.out.Raise? <==>
              exists i :: 0 <= i < |paths| && env.pathExists(Join(paths[i])) && env.encode(Join(paths[i])).Raise?
    ensures r.out.Return? ==> |r.out.value| <= |paths|
  {
    CollectRaise(p => EncodeStep(env, p), paths);
    Collect(p => EncodeStep(env, p), paths)
  }

  /** Qwen's message content: one image part per identifier, in order, each with
      the aligned size, then the query as the one text part. */
  function QwenContent(images: seq<string>, query: string, height: int, width: int): (r: seq<Part>)
    ensures |r| == |images| + 1 && r[|images|] == Text(query)
    ensures forall i :: 0 <= i < |images| ==> r[i] == ImageFile(Join(images[i]), height, width)
    ensures forall i :: 0 <= i < |r| ==> (r[i].Text? <==> i == |images|)
  {
    seq(|images|, i requires 0 <= i < |images| => ImageFile(Join(images[i]), height, width))
      + [Text(query)]
  }

  /** Pixtral's data URI: the MIME subtype is the file extension without its dot. */
  function PixtralUrl(fullPath: string, payload: string): (r: string)
    ensures Splitext(fullPath).1 == [] ==> r == "data:image/" + Base64Marker + payload
    ensures Splitext(fullPath).1 != [] ==> r == "data:image/" + Splitext(fullPath).1[1..] + Base64Marker + payload
  {
    DataUrl(Extension(fullPath), payload)
  }

  /** Qwen has no boundary of its own: whatever its model does is passed on. */
  function QwenAdapter(env: Env, images: seq<string>, query: string, height: int, width: int): (r: Run<string>)
    ensures |r.trace| > 0 && r.trace[0] == Setup(Qwen)
    ensures env.setup(Qwen).Return? ==>
              |r.trace| == 2 && r.trace[1].Invoke? && r.out == env.generate(r.trace[1].call)
  {
    match env.setup(Qwen)
    case Raise(e) => Run(Raise(e), [Setup(Qwen)])
    case Return(_) =>
      var call := Call(Qwen, QwenContent(images, query, AlignDown(height), AlignDown(width)));
      Run(env.generate(call), [Setup(Qwen), Invoke(call)])
  }

  /** Gemini catches every failure after its model is obtained, and never
      returns an empty text. */
  function GeminiAdapter(env: Env, images: seq<string>, query: string): (r: Run<string>)
    ensures |r.trace| > 0 && r.trace[0] == Setup(Gemini)
    ensures env.setup(Gemini).Return? ==> r.out.Return?
    ensures r.out.Return? ==> r.out.value != ""
  {
    match env.setup(Gemini)
    case Raise(e) => Run(Raise(e), [Setup(Gemini)])
    case Return(_) =>
      var loaded := LoadImages(env, images);
      var before := [Setup(Gemini)] + loaded.trace;
      match loaded.out
      case Raise(e) => Run(Return(ProcessingFailed(e)), before)
      case Return(imgs) =>
        if |imgs| == 0 then Run(Return(NoImages), before)
        else
          var call := Call(Gemini, [Text(query)] + ObjectParts(imgs));
          var text :=
            match env.generate(call)
            case Raise(e) => ProcessingFailed(e)
            case Return(t) => if t == "" then GeminiNoText else t;
          Run(Return(text), before + [Invoke(call)])
  }

  /** GPT-4 catches every failure after its client is built. */
  function Gpt4Adapter(env: Env, images: seq<string>, query: string): (r: Run<string>)
    ensures |r.trace| > 0 && r.trace[0] == Setup(Gpt4)
    ensures env.setup(Gpt4).Return? ==> r.out.Return?
  {
    match env.setup(Gpt4)
    case Raise(e) => Run(Raise(e), [Setup(Gpt4)])
    case Return(_) =>
      var encoded := EncodeImages(env, images);
      var before := [Setup(Gpt4)] + encoded.trace;
      match encoded.out
      case Raise(e) => Run(Return(ProcessingFailed(e)), before)
      case Return(urls) =>
        if |urls| == 0 then Run(Return(NoImages), before)
        else
          var call := Call(Gpt4, [Text(query)] + UrlParts(urls));
          var text :=
            match env.generate(call)
            case Raise(e) => ProcessingFailed(e)
            case Return(t) => t;
          Run(Return(text), before + [Invoke(call)])
  }

  /** Llama-vision has no boundary of its own; it needs at least one image. */
  function LlamaVisionAdapter(env: Env, images: seq<string>, query: string): (r: Run<string>)
    ensures |r.trace| > 0 && r.trace[0] == Setup(LlamaVision)
    ensures |images| == 0 ==> r.out.Raise? && !r.trace[|r.trace| - 1].Invoke?
    ensures r.trace[|r.trace| - 1].Invoke? ==> r.out == env.generate(r.trace[|r.trace| - 1].call)
    ensures !r.trace[|r.trace| - 1].Invoke? ==> r.out.Raise?
    ensures r.trace[|r.trace| - 1].Invoke? <==>
              env.setup(LlamaVision).Return? && |images| > 0 && env.open(Join(images[0])).Return?
    ensures r.trace[|r.trace| - 1].Invoke? ==>
              r.trace[|r.trace| - 1].call == Call(LlamaVision, [ImageObject(Image(Join(images[0]))), Text(query)])
  {
    match env.setup(LlamaVision)
    case Raise(e) => Run(Raise(e), [Setup(LlamaVision)])
    case Return(_) =>
      if |images| == 0 then Run(Raise(IndexOutOfRange), [Setup(LlamaVision)])
      else
        var full := Join(images[0]);
        match env.open(full)
        case Raise(e) => Run(Raise(e), [Setup(LlamaVision), Open(full)])
        case Return(_) =>
          var call := Call(LlamaVision, [ImageObject(Image(full)), Text(query)]);
          Run(env.generate(call), [Setup(LlamaVision), Open(full), Invoke(call)])
  }

  /** Pixtral has no boundary of its own: a read failure or whatever its model
      does is passed on. */
  function PixtralAdapter(env: Env, images: seq<string>, query: string): (r: Run<string>)
    ensures |r.trace| > 0 && r.trace[0] == Setup(Pixtral)
    ensures r.trace[|r.trace| - 1].Invoke? ==> r.out == env.generate(r.trace[|r.trace| - 1].call)
    ensures r.trace[|r.trace| - 1].Invoke? ==> r.trace[|r.trace| - 1].call.backend == Pixtral
    ensures !r.trace[|r.trace| - 1].Invoke? ==> r.out.Raise?
  {
    match env.setup(Pixtral)
    case Raise(e) => Run(Raise(e), [Setup(Pixtral)])
    case Return(_) =>
      if |images| == 0 then
        var call := Call(Pixtral, [Text(query)]);
        Run(env.generate(call), [Setup(Pixtral), Invoke(call)])
      else
        var full := Join(images[0]);
        match env.encode(full)
        case Raise(e) => Run(Raise(e), [Setup(Pixtral), Read(full)])
        case Return(b) =>
          var call := Call(Pixtral, [Text(query), ImageUrl(PixtralUrl(full, b))]);
          Run(env.generate(call), [Setup(Pixtral), Read(full), Invoke(call)])
  }

  /** Molmo's image loop over `images[:1]`: at most the first image is opened. */
  function MolmoLoad(env: Env, images: seq<string>): (r: Run<seq<Image>>)
    ensures r.out.Return? && |r.out.value| <= 1
    ensures r.out.value == [] <==> !(|images| > 0 && Loadable(env, images[0]))
    ensures r.out.value != [] ==> r.out.value == [Image(Join(images[0]))]
  {
    LoadFirstImage(env, images);
    LoadImages(env, Take1(images))
  }

  /** The loop over `images[:1]` is the first identifier's step alone. */
  lemma LoadFirstImage(env: Env, images: seq<string>)
    ensures |images| == 0 ==> LoadImages(env, Take1(images)).out == Return([])
    ensures |images| > 0 ==> LoadImages(env, Take1(images)).out.value
                             == if Loadable(env, images[0]) then [Image(Join(images[0]))] else []
  {
    if |images| > 0 {
      assert Take1(images) == [images[0]];
      CollectSingle(p => OpenStep(env, p), images[0]);
    }
  }

  /** Molmo catches every failure after its model is obtained. */
  function MolmoAdapter(env: Env, images: seq<string>, query: string): (r: Run<string>)
    ensures |r.trace| > 0 && r.trace[0] == Setup(Molmo)
    ensures env.setup(Molmo).Return? ==> r.out.Return?
  {
    match env.setup(Molmo)
    case Raise(e) => Run(Raise(e), [Setup(Molmo)])
    case Return(_) =>
      var loaded := MolmoLoad(env, images);
      var before := [Setup(Molmo)] + loaded.trace;
      match loaded.out
      case Raise(e) => Run(Raise(e), before)
      case Return(pil) =>
        if |pil| == 0 then Run(Return(NoImages), before)
        else
          var call := Call(Molmo, [Text(query)] + ObjectParts(pil));
          var text :=
            match env.generate(call)
            case Raise(e) => ProcessingFailed(e)
            case Return(t) => t;
          Run(Return(text), before + [Invoke(call)] + Closes(pil))
  }

  /** The key `generate_response` uses when none is given. */
  const DefaultKey: string := "qwen"

  /** The selected adapter. Each one obtains its model handle or client first. */
  function Adapter(env: Env, b: Backend, images: seq<string>, query: string, height: int, width: int): (r: Run<string>)
    ensures |r.trace| > 0 && r.trace[0] == Setup(b)
  {
    match b
    case Qwen => QwenAdapter(env, images, query, height, width)
    case Gemini => GeminiAdapter(env, images, query)
    case Gpt4 => Gpt4Adapter(env, images, query)
    case LlamaVision => LlamaVisionAdapter(env, images, query)
    case Pixtral => PixtralAdapter(env, images, query)
    case Molmo => MolmoAdapter(env, images, query)
  }

  /** `generate_response(images, query, session_id, resized_height, resized_width, model_choice)`.
      It always yields a text: an unknown key gets a fixed text without anything
      being consulted, and an exception escaping the adapter gets another. */
  function GenerateResponse(env: Env, images: seq<string>, query: string, height: int, width: int, key: string): (r: Response)
    ensures r.trace == [] <==> key !in KnownKeys
  {
    match ParseKey(key)
    case None => Response(InvalidModel, [])
    case Some(b) =>
      var run := Adapter(env, b, images, query, height, width);
      Response(if run.out.Raise? then GenerationFailed else run.out.value, run.trace)
  }
}

=== FILE: sizing.dfy ===
/** Qwen's grid alignment of the requested image size. */
module Sizing {

  /** Qwen's visual tokenizer works on 28-pixel patches. */
  const Alignment: int := 28

  /** The default requested height and width of `generate_response`. */
  const DefaultSize: int := 280

  /** `(n // 28) * 28`. Python's `//` rounds towards negative infinity, which for
      a positive divisor is exactly Dafny's Euclidean `/`, so negative sizes are
      rounded the same way too. */
  function AlignDown(n: int): (r: int)
    ensures r % Alignment == 0
    ensures r <= n < r + Alignment
  {
    (n / Alignment) * Alignment
  }

  /** The aligned size is the only multiple of 28 in the window `(n - 28, n]`. */
  lemma AlignDownUnique(n: int, m: int)
    requires m % Alignment == 0
    requires m <= n < m + Alignment
    ensures m == AlignDown(n)
  {
  }

  /** Aligning twice changes nothing, and the default size is already aligned. */
  lemma AlignDownIdempotent(n: int)
    ensures AlignDown(AlignDown(n)) == AlignDown(n)
    ensures AlignDown(DefaultSize) == DefaultSize
    ensures AlignDown(300) == 280
  {
  }

  /** A larger request never yields a smaller aligned size. */
  lemma AlignDownMonotonic(n: int, m: int)
    requires n <= m
    ensures AlignDown(n) <= AlignDown(m)
  {
  }
}
